=== FILE: README.md ===
# AI Product Stylizer — a Dafny model of its core

AI Product Stylizer is a single-page web application. Behind a fixed-credential login,
the user uploads three images: a design or scene, a product, and a logo. The user
picks an output aspect ratio, and a remote image-generation service composes the
product into the scene with the logo as a watermark. Every result goes into a
session history, newest first. The current result can be refined by free-text edit
instructions, and each edit replaces the entry it was made from.

This project models that core in Dafny and proves properties of the model.

- `types.dfy`, module `Types`: the value types shared by the application. These are
  the uploaded file, the generated image and the four aspect ratios.
- `js_string.dfy`, module `JsString`: the JavaScript string operations the service
  code depends on. They follow ECMAScript over strings of Unicode characters rather
  than UTF-16 code units; see "## Left out".
  - `indexOf` returns -1 when the character is absent.
  - `substring` clamps its bounds and swaps them when they are reversed.
  - `split` cuts a string at every occurrence of a character.
  - Indexing past the end of an array gives `undefined`.
  - `startsWith`.
  - `trim` removes ECMAScript white space.
- `gemini_service.dfy`, module `GeminiService` (pure), covers the service layer:
  - turning an uploaded file into an inline request part;
  - formatting and parsing data URIs;
  - the layout of the generation request (four parts) and of the edit request (two
    parts);
  - selecting the first candidate part that carries inline data;
  - how `generateImage` and `editImage` settle (a string result or a thrown error).
  The network call is the parameter `remote`. It maps the request parts to a reply:
  either a response or a thrown error, with or without a message.
- `login.dfy`, module `Login`: the login form as a class with its three fields,
  `handleSubmit`, and the browser's `required` check that comes before it.
- `image_uploader.dfy`, module `ImageUploader`: one upload slot as a class. It covers
  the MIME-type guard, removal, the click that opens the file picker only when no
  preview is shown, and the preview itself.
- `edit_dialog.dfy`, module `EditDialog`: the edit dialog as a class. It covers the
  trim guard on submission, the submit button's disabled condition, and what the
  dialog shows.
- `app.dfy`, module `App`: the orchestrator state of `App.tsx` as the class
  `AppState`. It covers the login gate, the three file slots, the ratio, the
  generate and edit handlers, selection from history, and the effect that opens
  the edit dialog.
  - Pure history transformations sit beside the class. Lemmas about them show what
    the handlers keep: distinct identifiers, the length of the history after an edit,
    and that the replaced entry is gone.

Each handler is one atomic step of `AppState`. The awaited service call is made in
the middle of that step, through `remote`. The step ends with the dialog effect
(`App.tsx:27-32`) when it changed one of the effect's dependencies: the current
result, the history or the loading flag. `Valid()` states what holds between
handlers: no request is in flight, and the current result is a history entry.

Updates made after an `await` in a handler are assumed to commit together in one
render, as React 18's automatic batching does. The effect then sees only their
combined result. Two statements of intent in the code are contradicted by what it
does, and the model follows the code:

- The handler closes the dialog explicitly after a successful edit (`App.tsx:73`).
  The effect then runs, because the current result and the history changed. It finds
  the edited image at the head of the history with nothing loading, so it opens the
  dialog again (`App.tsx:29-30`). In the model the dialog ends open
  (`App.AppState.EditSubmit`). Other React versions are not modelled.
- The comment at `App.tsx:28` says the dialog opens only for new generations, not for
  selections from history. In the code, selecting the newest history entry while
  another entry is current changes the current result, and the effect opens the
  dialog. The comment holds only for entries other than the newest
  (`App.OlderEntryDoesNotFire`) and for reselecting the current entry.
  `App.AppState.SelectFromHistory` states both cases.

## Model

| member | source | states |
|---|---|---|
| Types.Label | types.ts:6 | each ratio is one of the literal labels, of the form "w:h" |
| Types.ParseLabel | types.ts:6 | a string is parsed into a ratio only when it is that ratio's label |
| Types.LabelRoundTrip | types.ts:6 | every ratio's label parses back into that ratio |
| Types.LabelInjective | types.ts:6 | distinct ratios have distinct labels, so a prompt naming the label names the ratio |
| JsString.IndexOf | services/geminiService.ts:68 | the result is -1 exactly when the character is absent; otherwise it is the position of its first occurrence |
| JsString.Clamp | services/geminiService.ts:68 | `substring` clamps each argument into `0..length`: a negative argument becomes 0, one past the length becomes the length, and an in-range argument is kept |
| JsString.Substring | services/geminiService.ts:68 | in-range bounds select that slice; reversed bounds are swapped; a negative end counts as 0 |
| JsString.At | services/geminiService.ts:13 | indexing yields a value exactly when the index is within the array, and then it is that element |
| JsString.Split | services/geminiService.ts:13 | `split` always yields at least one piece; JoinSplit and SplitPiecesFree pin down the pieces themselves |
| JsString.JoinSplit | services/geminiService.ts:13 | splitting loses nothing: joining the pieces with the separator gives back the string |
| JsString.SplitJoin | services/geminiService.ts:69 | pieces free of the separator, once joined, split back into exactly those pieces |
| JsString.SplitPiecesFree | services/geminiService.ts:13 | no piece of a split contains the separator |
| JsString.SplitHead | services/geminiService.ts:69 | the first piece is the prefix up to the first separator, or the whole string when there is none |
| JsString.SplitWithout | services/geminiService.ts:69 | a string without the separator splits into itself alone |
| JsString.SplitSecond | services/geminiService.ts:69 | with the separator present there are at least two pieces, and the second is the first piece of what follows the first separator |
| JsString.StartsWith | components/ImageUploader.tsx:18 | `startsWith`: the prefix is no longer than the string and equals its first characters |
| JsString.Trim | components/EditDialog.tsx:19-20 | the result is empty exactly when the text is all white space; otherwise it starts and ends with a non-space character and is the text with only white space cut from either end |
| JsString.TrimIdempotent | components/EditDialog.tsx:19-20 | trimming an already trimmed instruction changes nothing |
| GeminiService.ParseMimeType | services/geminiService.ts:68 | the MIME type is the text between the first ':' and the first ';'; the cases where ';' is missing or comes first follow `substring`'s clamping and swapping |
| GeminiService.FormatDataUri | services/geminiService.ts:57 | the data URI `data:m;base64,d` the service returns; what parsing recovers from it is stated by DataUriRoundTrip |
| GeminiService.Payload | services/geminiService.ts:69 | `split(',')[1]` is undefined exactly when there is no comma; otherwise it is the comma-free text right after the first comma, up to the next comma or the end |
| GeminiService.DataUriRoundTrip | services/geminiService.ts:68-69 | parsing a data URI built as `data:m;base64,d` gives back the MIME type and the data, when they hold no ';' or ',' |
| GeminiService.MimeTypeRoundTrip | services/geminiService.ts:68 | the MIME type parsed from a formatted data URI is the one formatted into it |
| GeminiService.PayloadRoundTrip | services/geminiService.ts:69 | the payload taken from a formatted data URI is the data formatted into it |
| GeminiService.FileToPart | services/geminiService.ts:10-17 | the part carries the file's declared MIME type, and its data is `Payload` of the encoding (`split(',')[1]`), present exactly when the encoding contains a comma |
| GeminiService.FileToPartSendsData | services/geminiService.ts:10-17 | a file read into a data URI is sent with exactly the data that URI wraps |
| GeminiService.GenerationPrompt | services/geminiService.ts:27-33 | the generation prompt names the selected aspect ratio |
| GeminiService.GenerationContents | services/geminiService.ts:35-42 | the request is four parts: design, product and logo, in that order, then a text part naming the ratio |
| GeminiService.EditPrompt | services/geminiService.ts:71 | the edit prompt quotes the instruction |
| GeminiService.EditContents | services/geminiService.ts:73-83 | the request is two parts: the existing image as parsed from its data URI, then a text part holding the instruction |
| GeminiService.EditResendsImage | services/geminiService.ts:68-83 | an image the service produced is sent back with its own MIME type and data when it is edited |
| GeminiService.FindInline | services/geminiService.ts:52 | the position found is the first part with inline data; none is found exactly when no part has any |
| GeminiService.FirstCandidateParts | services/geminiService.ts:52 | `response.candidates?.[0]?.content?.parts`: the parts of the first candidate, or undefined when there are no candidates, the list is empty, or the first has no content |
| GeminiService.FirstImage | services/geminiService.ts:52-54 | an image is found exactly when the first candidate has content with some inline-data part, and it is the first such part's data |
| GeminiService.ReplySettles | services/geminiService.ts:52-60 | a thrown error passes through unchanged; a response succeeds exactly when it holds an image, returning that image as a data URI, and otherwise fails with the fixed message |
| GeminiService.GenerateImageSettles | services/geminiService.ts:19-61 | `generateImage` sends the four-part request; it throws the remote error, or "Image generation failed. No image data received." when no image comes back, or returns the image as a data URI |
| GeminiService.EditImageSettles | services/geminiService.ts:63-102 | `editImage` sends the two-part request; it throws the remote error, or "Image editing failed. No image data received." when no image comes back, or returns the image as a data URI |
| GeminiService.SuccessParses | services/geminiService.ts:54-58 | the data URI returned on success parses back into the MIME type and data of the image part it came from |
| GeminiService.ImageFrom | services/geminiService.ts:52-60 | the settling of a reply shared by both service calls; its behaviour is stated by ReplySettles |
| GeminiService.GenerateImage | services/geminiService.ts:19-61 | `generateImage` with the remote call as a parameter; its behaviour is stated by GenerateImageSettles |
| GeminiService.EditImage | services/geminiService.ts:63-102 | `editImage` with the remote call as a parameter; its behaviour is stated by EditImageSettles |
| Login.SubmitError | components/Login.tsx:15-20 | the error line is empty exactly for the credentials evo / 0001, and otherwise it is "Invalid username or password." |
| Login.ValidCredentials | components/Login.tsx:15 | the one accepted pair is evo / 0001 |
| Login.Submittable | components/Login.tsx:49 | both fields are `required` (lines 49 and 66), so the form submits only when neither is empty |
| Login.ValidSubmittable | components/Login.tsx:15 | the accepted credentials always pass the browser's `required` check |
| Login.LoginForm.constructor | components/Login.tsx:9-11 | the form starts with both fields and the error line empty |
| Login.LoginForm.SetUsername | components/Login.tsx:46 | the username field takes the typed value |
| Login.LoginForm.SetPassword | components/Login.tsx:63 | the password field takes the typed value |
| Login.LoginForm.Submit | components/Login.tsx:13-21 | `handleSubmit`: success is signalled exactly for the accepted credentials. The error line is cleared in that case and set to the fixed message otherwise |
| Login.LoginForm.RequestSubmit | components/Login.tsx:34 | pressing submit with an empty field leaves the error line unchanged and signals nothing; otherwise `handleSubmit` runs, so success is signalled exactly for the accepted credentials |
| ImageUploader.ShowsPreview | components/ImageUploader.tsx:62 | the preview image, rather than the placeholder, is shown exactly when the preview is neither null nor "" |
| ImageUploader.IsImageType | components/ImageUploader.tsx:18 | a file is taken only when its MIME type starts with "image/" |
| ImageUploader.Uploader.constructor | components/ImageUploader.tsx:13 | a slot starts with no preview |
| ImageUploader.Uploader.FileChange | components/ImageUploader.tsx:16-27 | a file whose type starts with "image/" becomes the preview and is reported with that same encoding; no file, or a file of another type, leaves the preview unchanged and reports nothing |
| ImageUploader.Uploader.Remove | components/ImageUploader.tsx:29-36 | the preview and the file input are cleared and null is reported |
| ImageUploader.Uploader.Click | components/ImageUploader.tsx:38-42 | the file picker opens exactly when no preview image is shown |
| EditDialog.ViewOf | components/EditDialog.tsx:15-38 | a closed dialog shows nothing; an open one shows the form exactly when no edit is in progress |
| EditDialog.SubmitDisabled | components/EditDialog.tsx:49 | the submit button is disabled exactly while editing or while the text is all white space |
| EditDialog.Dialog.constructor | components/EditDialog.tsx:13 | the instruction text starts empty |
| EditDialog.Dialog.SetPrompt | components/EditDialog.tsx:42 | the text area takes the typed value |
| EditDialog.Dialog.Submit | components/EditDialog.tsx:17-22 | an instruction is passed on exactly when the text holds a non-space character; what is passed on is the text with only white space cut from its ends, and it starts and ends with a non-space character |
| App.ErrorText | App.tsx:53 | a caught error shows its own message when it has one, else the given fallback |
| App.WithoutId | App.tsx:71 | every kept entry has another identifier and comes from the history; every entry with another identifier is kept; as many entries are dropped as carry the identifier. WithoutIdAppend fixes the order |
| App.WithoutIdAppend | App.tsx:71 | the filter distributes over concatenation. With its empty and one-entry cases this fixes the result exactly: the kept entries in their order and with their multiplicity |
| App.WithoutIdDistinct | App.tsx:71 | filtering a history with distinct identifiers keeps them distinct |
| App.DistinctCountOne | App.tsx:71 | in a history with distinct identifiers, an identifier occurs once if it occurs at all |
| App.EditedHistory | App.tsx:65-72 | after an edit, the edited image heads the history, the history keeps its length and its distinct identifiers, and the old entry is gone |
| App.GeneratedHistory | App.tsx:43-49 | prepending a newly generated image with a fresh identifier keeps identifiers distinct |
| App.OlderEntryDoesNotFire | App.tsx:27-32 | with distinct identifiers, a current result that is not the newest entry never opens the dialog |
| App.DialogRule | App.tsx:29 | the effect's condition: a current result whose identifier is the newest entry's, with nothing loading |
| App.AppState.constructor | App.tsx:15-25 | the initial state: signed out, no files, ratio 1:1, nothing loading, no error, no result, empty history, dialog closed |
| App.AppState.OpenDialogIfFresh | App.tsx:27-32 | the effect opens the dialog exactly when the current result is the newest history entry (by identifier) and nothing is loading; it never closes it |
| App.AppState.CanGenerate | App.tsx:34 | `canGenerate`: all three slots hold a file |
| App.AppState.GenerateDisabled | App.tsx:114 | an enabled generate button always finds all three files and nothing loading; between handlers it is disabled exactly when a slot is empty |
| App.AppState.LoginSuccess | App.tsx:88 | a successful login authenticates the session |
| App.AppState.SubmitLogin | App.tsx:87-89 | while signed out, pressing the form's submit button authenticates exactly for the accepted credentials. The form's error line is set by `handleSubmit` when both fields are filled, and is left unchanged otherwise |
| App.AppState.SetFile | App.tsx:106-108 | an upload slot's report replaces that slot's file and no other |
| App.AppState.SetAspectRatio | App.tsx:110 | the picker's choice becomes the ratio |
| App.AppState.OpenEditDialog | App.tsx:125 | the result view's edit action opens the dialog |
| App.AppState.CloseEditDialog | App.tsx:134 | the dialog's close action closes it |
| App.AppState.Generate | App.tsx:36-57 | without all three files nothing changes. Otherwise the service gets the three files and the ratio. On success the new image ("Initial generation", fresh id, the ratio) is prepended to the history and becomes current, with no error and the dialog open. On failure the history is unchanged, the result stays cleared, and the error is the thrown message or "An unknown error occurred." Loading ends either way |
| App.AppState.FinishGenerate | App.tsx:41-56 | what the try, catch and finally blocks and then the effect leave, for each way the service settled |
| App.AppState.EditSubmit | App.tsx:59-80 | without a current result nothing changes. Otherwise the service gets its image and the instruction. On success the edited image (fresh id, the instruction as prompt, the same ratio) replaces the old entry at the head of the history and becomes current, with no error; the effect leaves the dialog open. On failure only the error changes, to the thrown message or "An unknown error occurred during editing." |
| App.AppState.FinishEdit | App.tsx:63-79 | what the try, catch and finally blocks and then the effect leave, for each way the service settled |
| App.AppState.SelectFromHistory | App.tsx:82-85 | the chosen entry becomes current and the history is untouched; the dialog opens exactly when the choice is the newest entry and differs from the previous current result |

## Left out

- The remote model call, the model name, and the response-modality configuration are
  not modelled. The network call is the parameter `remote`, so any reply is possible.
- The module-level check that throws when `API_KEY` is missing is not modelled. The
  client construction is not modelled either.
- GeminiService.GenerationPrompt: only the prompt's final clause naming the ratio is
  kept. The instructions before it are abbreviated, so the model states only that the
  prompt names the ratio.
- GeminiService.EditPrompt: the wording around the quoted instruction is abbreviated.
  The model states only that the prompt quotes the instruction.
- A response whose content lacks a `parts` array makes `find` throw a `TypeError` in
  the source. The model gives every content a sequence of parts.
- An `inlineData` without `mimeType` or `data` would be interpolated as "undefined".
  The model gives every blob both fields.
- Handlers are atomic steps. React's intermediate renders are not modelled, nor two
  handlers interleaving while a call is awaited. The loading and editing flags are
  set and cleared within one step.
- The `FileReader` read is taken as finished: the data URI arrives with the picked
  file. The browser `File` object is reduced to its MIME type.
- Identifiers come from `new Date().toISOString()`. The model takes them as the
  parameter `freshId`. Freshness is a precondition of the history lemmas, not
  something the clock guarantees.
- Strings are sequences of Unicode scalar values, whereas JavaScript strings are
  UTF-16 code units. Positions differ after characters outside the Basic Multilingual
  Plane, and lone surrogates cannot occur in the model. For the characters this code
  searches for (':', ';' and ','), `indexOf`, `substring` and `split` cut at the
  same characters either way. `trim` removes no surrogates.
- `console.error` is not modelled.
- `window.scrollTo` is not modelled.
- Downloads in the history gallery and the result view are not modelled.
- The download file name is not modelled.
- All JSX rendering is left out, apart from the uploader preview, the dialog view, and
  the button conditions.
- The effect compares the current result by value. React compares it by object
  identity. The two differ only when an equal object is selected again.
- ImageUploader.Uploader.FileChange: the file input's `value`, which the browser sets
  when a file is picked, is not tracked. Only `handleRemove` resets it.
- The `fileInputRef.current` checks assume the element is mounted.

The following are not part of this model:

- `components/HistoryGallery.tsx`
- `components/ResultDisplay.tsx`
- `components/AspectRatioSelector.tsx`
- `components/Spinner.tsx`
- `components/icons`

Their callbacks appear only as the `AppState` methods they invoke.

=== FILE: app.dfy ===
/**
 * The application's top-level state (App.tsx): the login gate, the three
 * upload slots, the chosen ratio, the generation and edit handlers, the
 * session history and the effect that opens the edit dialog on a fresh
 * result.
 *
 * Each handler runs as one atomic step, with the awaited service call in the
 * middle of it, followed by the dialog effect when the step changed what the
 * effect depends on (the current result, the history or the loading flag).
 */
module App {
  import opened Types
  import GeminiService
  import Login

  const InitialPrompt := "Initial generation"
  const UnknownGenerationError := "An unknown error occurred."
  const UnknownEditError := "An unknown error occurred during editing."

  /** The message a caught error leaves: its own when it is an `Error`, else `fallback`. */
  function ErrorText(message: Option<string>, fallback: string): (text: string)
    ensures message.Some? ==> text == message.value
    ensures message.None? ==> text == fallback
  {
    match message
    case Some(m) => m
    case None => fallback
  }

  // ---------------------------------------------------------------------------
  // History, newest first

  ghost predicate HasId(h: seq<GeneratedImage>, id: string) {
    exists i :: 0 <= i < |h| && h[i].id == id
  }

  ghost predicate DistinctIds(h: seq<GeneratedImage>) {
    forall i, j :: 0 <= i < j < |h| ==> h[i].id != h[j].id
  }

  /** How many entries of `h` carry `id`. */
  function CountId(h: seq<GeneratedImage>, id: string): nat {
    if |h| == 0 then 0 else (if h[0].id == id then 1 else 0) + CountId(h[1..], id)
  }

  /** `h.filter(img => img.id !== id)`: every entry with another id, in order. */
  function WithoutId(h: seq<GeneratedImage>, id: string): (r: seq<GeneratedImage>)
    ensures forall i :: 0 <= i < |r| ==> r[i].id != id && r[i] in h
    ensures forall x :: x in h && x.id != id ==> x in r
    ensures |r| == |h| - CountId(h, id)
  {
    if |h| == 0 then []
    else if h[0].id == id then WithoutId(h[1..], id)
    else [h[0]] + WithoutId(h[1..], id)
  }

  /**
   * The filter distributes over concatenation; with its value on the empty
   * and one-entry histories (its first two cases) this pins it down: entries
   * are kept in their order and with their multiplicity.
   */
  lemma {:induction false} WithoutIdAppend(a: seq<GeneratedImage>, b: seq<GeneratedImage>, id: string)
    ensures WithoutId(a + b, id) == WithoutId(a, id) + WithoutId(b, id)
  {
    if |a| == 0 {
      assert a + b == b;
    } else {
      var ab := a + b;
      assert ab[0] == a[0] && ab[1..] == a[1..] + b;
      WithoutIdAppend(a[1..], b, id);
      var rest := WithoutId(a[1..], id) + WithoutId(b, id);
      if a[0].id == id {
        assert WithoutId(ab, id) == WithoutId(ab[1..], id);
      } else {
        assert WithoutId(ab, id) == [a[0]] + WithoutId(ab[1..], id);
        assert [a[0]] + rest == [a[0]] + WithoutId(a[1..], id) + WithoutId(b, id);
      }
    }
  }

  /** Filtering keeps identifiers distinct. */
  lemma {:induction false} WithoutIdDistinct(h: seq<GeneratedImage>, id: string)
    requires DistinctIds(h)
    ensures DistinctIds(WithoutId(h, id))
  {
    if |h| > 0 {
      var t := h[1..];
      assert DistinctIds(t) by {
        forall i, j | 0 <= i < j < |t| ensures t[i].id != t[j].id {
          assert t[i] == h[i + 1] && t[j] == h[j + 1];
        }
      }
      WithoutIdDistinct(t, id);
      if h[0].id != id {
        var rt := WithoutId(t, id);
        forall j | 0 <= j < |rt| ensures rt[j].id != h[0].id {
          var k :| 0 <= k < |t| && t[k] == rt[j];
          assert h[k + 1] == rt[j];
        }
      }
    }
  }

  /** In a history with distinct identifiers, an identifier present occurs once. */
  lemma {:induction false} DistinctCountOne(h: seq<GeneratedImage>, id: string)
    requires DistinctIds(h)
    ensures CountId(h, id) == if HasId(h, id) then 1 else 0
  {
    if |h| > 0 {
      var t := h[1..];
      assert DistinctIds(t) by {
        forall i, j | 0 <= i < j < |t| ensures t[i].id != t[j].id {
          assert t[i] == h[i + 1] && t[j] == h[j + 1];
        }
      }
      DistinctCountOne(t, id);
      if h[0].id == id {
        assert !HasId(t, id) by {
          forall k | 0 <= k < |t| ensures t[k].id != id {
            assert t[k] == h[k + 1];
          }
        }
      } else {
        assert HasId(h, id) <==> HasId(t, id) by {
          if HasId(h, id) {
            var k :| 0 <= k < |h| && h[k].id == id;
            assert t[k - 1] == h[k];
          }
          if HasId(t, id) {
            var k :| 0 <= k < |t| && t[k].id == id;
            assert h[k + 1] == t[k];
          }
        }
      }
    }
  }

  /**
   * The history after an edit of the entry `oldId`: the edited image first,
   * then every entry with another identifier. With distinct identifiers, the
   * edited entry present and a fresh identifier for the new one, the history
   * keeps its length and its distinct identifiers, and `oldId` is gone.
   */
  lemma EditedHistory(h: seq<GeneratedImage>, oldId: string, edited: GeneratedImage)
    requires DistinctIds(h) && HasId(h, oldId) && !HasId(h, edited.id)
    ensures var r := [edited] + WithoutId(h, oldId);
            && r[0] == edited
            && |r| == |h|
            && DistinctIds(r)
            && !HasId(r, oldId)
  {
    var w := WithoutId(h, oldId);
    var r := [edited] + w;
    DistinctCountOne(h, oldId);
    WithoutIdDistinct(h, oldId);
    forall j | 0 <= j < |w| ensures w[j].id != edited.id {
      var k :| 0 <= k < |h| && h[k] == w[j];
    }
    assert edited.id != oldId;
    forall i, j | 0 <= i < j < |r| ensures r[i].id != r[j].id {
      if i > 0 {
        assert r[i] == w[i - 1] && r[j] == w[j - 1];
      } else {
        assert r[j] == w[j - 1];
      }
    }
    forall i | 0 <= i < |r| ensures r[i].id != oldId {
      if i > 0 {
        assert r[i] == w[i - 1];
      }
    }
  }

  /** Prepending an image with a fresh identifier keeps identifiers distinct. */
  lemma GeneratedHistory(h: seq<GeneratedImage>, image: GeneratedImage)
    requires DistinctIds(h) && !HasId(h, image.id)
    ensures DistinctIds([image] + h)
  {
    var r := [image] + h;
    forall i, j | 0 <= i < j < |r| ensures r[i].id != r[j].id {
      assert r[j] == h[j - 1];
      if i > 0 {
        assert r[i] == h[i - 1];
      }
    }
  }

  /**
   * The condition of the dialog effect: a current result that is the newest
   * history entry (compared by identifier), with no generation in flight.
   */
  predicate DialogRule(current: Option<GeneratedImage>, h: seq<GeneratedImage>, loading: bool) {
    current.Some? && |h| > 0 && h[0].id == current.value.id && !loading
  }

  /** Selecting any entry but the newest never fires the effect, when identifiers are distinct. */
  lemma OlderEntryDoesNotFire(h: seq<GeneratedImage>, k: nat)
    requires DistinctIds(h) && 0 < k < |h|
    ensures !DialogRule(Some(h[k]), h, false)
  {
    assert h[0].id != h[k].id;
  }

  datatype Slot = Design | Product | Logo

  class AppState {
    var isAuthenticated: bool
    var designFile: Option<UploadedFile>
    var productFile: Option<UploadedFile>
    var logoFile: Option<UploadedFile>
    var aspectRatio: AspectRatio
    var isLoading: bool
    var isEditing: bool
    var error: Option<string>
    var currentResult: Option<GeneratedImage>
    var history: seq<GeneratedImage>
    var isEditDialogOpen: bool

    /**
     * Between two handlers no request is in flight, and the current result,
     * if any, is one of the history's entries.
     */
    ghost predicate Valid()
      reads this
    {
      !isLoading && !isEditing && (currentResult.Some? ==> currentResult.value in history)
    }

    constructor ()
      ensures Valid()
      ensures !isAuthenticated && designFile == None && productFile == None && logoFile == None
      ensures aspectRatio == Square && !isLoading && !isEditing && error == None
      ensures currentResult == None && history == [] && !isEditDialogOpen
    {
      isAuthenticated := false;
      designFile, productFile, logoFile := None, None, None;
      aspectRatio := Square;
      isLoading, isEditing := false, false;
      error, currentResult := None, None;
      history := [];
      isEditDialogOpen := false;
    }

    /** `canGenerate`: all three slots hold a file. */
    predicate CanGenerate()
      reads this
    {
      designFile.Some? && productFile.Some? && logoFile.Some?
    }

    /**
     * The generate button's `disabled`. An enabled button always gets past
     * the handler's guard, and between handlers the button is disabled
     * exactly when a slot is empty.
     */
    function GenerateDisabled(): (disabled: bool)
      reads this
      ensures !disabled ==> designFile.Some? && productFile.Some? && logoFile.Some? && !isLoading
      ensures Valid() ==> (disabled <==> designFile.None? || productFile.None? || logoFile.None?)
    {
      !CanGenerate() || isLoading
    }

    /** The effect: opens the dialog when `DialogRule` holds; it never closes it. */
    method OpenDialogIfFresh()
      modifies this`isEditDialogOpen
      ensures isEditDialogOpen == (old(isEditDialogOpen) || DialogRule(currentResult, history, isLoading))
    {
      if currentResult.Some? && |history| > 0 && history[0].id == currentResult.value.id && !isLoading {
        isEditDialogOpen := true;
      }
    }

    /** `onLoginSuccess`: the only way in; nothing signs out. */
    method LoginSuccess()
      modifies this`isAuthenticated
      ensures isAuthenticated
    {
      isAuthenticated := true;
    }

    /** The login form, shown while not authenticated, submitted once. */
    method SubmitLogin(form: Login.LoginForm)
      requires !isAuthenticated
      modifies this`isAuthenticated, form`error
      ensures isAuthenticated <==> Login.ValidCredentials(form.username, form.password)
      ensures Login.Submittable(form.username, form.password) ==>
                form.error == Login.SubmitError(form.username, form.password)
      ensures !Login.Submittable(form.username, form.password) ==> form.error == old(form.error)
    {
      var signalled := form.RequestSubmit();
      if signalled {
        LoginSuccess();
      }
    }

    /** An upload slot's `onFileChange` (`setDesignFile`, `setProductFile`, `setLogoFile`). */
    method SetFile(slot: Slot, file: Option<UploadedFile>)
      requires isAuthenticated
      modifies this`designFile, this`productFile, this`logoFile
      ensures designFile == if slot == Design then file else old(designFile)
      ensures productFile == if slot == Product then file else old(productFile)
      ensures logoFile == if slot == Logo then file else old(logoFile)
    {
      match slot
      case Design => designFile := file;
      case Product => productFile := file;
      case Logo => logoFile := file;
    }

    /** The ratio picker's `onChange`. */
    method SetAspectRatio(ratio: AspectRatio)
      requires isAuthenticated
      modifies this`aspectRatio
      ensures aspectRatio == ratio
    {
      aspectRatio := ratio;
    }

    /** The result view's edit action. */
    method OpenEditDialog()
      requires isAuthenticated
      modifies this`isEditDialogOpen
      ensures isEditDialogOpen
    {
      isEditDialogOpen := true;
    }

    /** The dialog's close button. */
    method CloseEditDialog()
      requires isAuthenticated
      modifies this`isEditDialogOpen
      ensures !isEditDialogOpen
    {
      isEditDialogOpen := false;
    }

    /**
     * `handleGenerate`. Without all three files nothing happens. Otherwise the
     * service is called with the three files and the ratio; on success the new
     * image heads the history, becomes current and the dialog opens; on
     * failure the current result stays cleared and the error is shown.
     */
    method Generate(remote: GeminiService.Remote, freshId: string)
      requires isAuthenticated && Valid()
      modifies this`isLoading, this`error, this`currentResult, this`history, this`isEditDialogOpen
      ensures Valid()
      ensures !old(CanGenerate()) ==>
                && history == old(history) && currentResult == old(currentResult)
                && error == old(error) && isEditDialogOpen == old(isEditDialogOpen)
      ensures old(CanGenerate()) ==>
                var outcome := GeminiService.GenerateImage(old(designFile).value, old(productFile).value, old(logoFile).value, old(aspectRatio), remote);
                && (outcome.Success? ==>
                      var image := GeneratedImage(freshId, outcome.src, InitialPrompt, aspectRatio);
                      && history == [image] + old(history)
                      && currentResult == Some(image)
                      && error == None
                      && isEditDialogOpen)
                && (outcome.Failure? ==>
                      && history == old(history)
                      && currentResult == None
                      && error == Some(ErrorText(outcome.message, UnknownGenerationError))
                      && isEditDialogOpen == old(isEditDialogOpen))
    {
      if !CanGenerate() {
        return;
      }
      var design, product, logo, ratio := designFile.value, productFile.value, logoFile.value, aspectRatio;
      isLoading := true;
      error := None;
      currentResult := None;
      var outcome := GeminiService.GenerateImage(design, product, logo, ratio, remote);
      FinishGenerate(outcome, freshId);
    }

    /**
     * The rest of `handleGenerate` once the service has settled: the `try`,
     * `catch` and `finally` blocks, then the effect (the loading flag changed).
     */
    method FinishGenerate(outcome: GeminiService.Outcome, freshId: string)
      requires isLoading && !isEditing && currentResult.None?
      modifies this`isLoading, this`error, this`currentResult, this`history, this`isEditDialogOpen
      ensures !isLoading
      ensures outcome.Success? ==>
                var image := GeneratedImage(freshId, outcome.src, InitialPrompt, aspectRatio);
                && history == [image] + old(history)
                && currentResult == Some(image)
                && error == old(error)
                && isEditDialogOpen
      ensures outcome.Failure? ==>
                && history == old(history)
                && currentResult == None
                && error == Some(ErrorText(outcome.message, UnknownGenerationError))
                && isEditDialogOpen == old(isEditDialogOpen)
    {
      match outcome {
        case Success(src) =>
          var image := GeneratedImage(freshId, src, InitialPrompt, aspectRatio);
          history := [image] + history;
          currentResult := Some(image);
        case Failure(message) =>
          error := Some(ErrorText(message, UnknownGenerationError));
      }
      isLoading := false;
      OpenDialogIfFresh();
    }

    /**
     * `handleEditSubmit`. Without a current result nothing happens. Otherwise
     * the current image is sent with the instruction; on success the edited
     * image, which keeps the ratio and takes the instruction as its prompt,
     * replaces the old entry at the head of the history and becomes current.
     * The handler closes the dialog, but the effect then sees a current result
     * equal to the newest entry and opens it again. On failure only the error
     * changes.
     */
    method EditSubmit(prompt: string, remote: GeminiService.Remote, freshId: string)
      requires isAuthenticated && Valid()
      modifies this`isEditing, this`error, this`currentResult, this`history, this`isEditDialogOpen
      ensures Valid()
      ensures old(currentResult).None? ==>
                && history == old(history) && currentResult == old(currentResult)
                && error == old(error) && isEditDialogOpen == old(isEditDialogOpen)
      ensures old(currentResult).Some? ==>
                var before := old(currentResult).value;
                var outcome := GeminiService.EditImage(before.src, prompt, remote);
                && (outcome.Success? ==>
                      var edited := GeneratedImage(freshId, outcome.src, prompt, before.aspectRatio);
                      && history == [edited] + WithoutId(old(history), before.id)
                      && currentResult == Some(edited)
                      && error == None
                      && isEditDialogOpen)
                && (outcome.Failure? ==>
                      && history == old(history)
                      && currentResult == old(currentResult)
                      && error == Some(ErrorText(outcome.message, UnknownEditError))
                      && isEditDialogOpen == old(isEditDialogOpen))
    {
      if currentResult.None? {
        return;
      }
      isEditing := true;
      error := None;
      var outcome := GeminiService.EditImage(currentResult.value.src, prompt, remote);
      FinishEdit(outcome, prompt, freshId);
    }

    /**
     * The rest of `handleEditSubmit` once the service has settled: the `try`,
     * `catch` and `finally` blocks, then the effect when the current result
     * and the history changed.
     */
    method FinishEdit(outcome: GeminiService.Outcome, prompt: string, freshId: string)
      requires isEditing && !isLoading && currentResult.Some?
      modifies this`isEditing, this`error, this`currentResult, this`history, this`isEditDialogOpen
      ensures !isEditing
      ensures outcome.Success? ==>
                var before := old(currentResult).value;
                var edited := GeneratedImage(freshId, outcome.src, prompt, before.aspectRatio);
                && history == [edited] + WithoutId(old(history), before.id)
                && currentResult == Some(edited)
                && error == old(error)
                && isEditDialogOpen
      ensures outcome.Failure? ==>
                && history == old(history)
                && currentResult == old(currentResult)
                && error == Some(ErrorText(outcome.message, UnknownEditError))
                && isEditDialogOpen == old(isEditDialogOpen)
    {
      var before := currentResult.value;
      match outcome {
        case Success(src) =>
          var edited := before.(id := freshId, src := src, prompt := prompt);
          history := [edited] + WithoutId(history, before.id);
          currentResult := Some(edited);
          isEditDialogOpen := false;
          isEditing := false;
          OpenDialogIfFresh();
        case Failure(message) =>
          error := Some(ErrorText(message, UnknownEditError));
          isEditing := false;
      }
    }

    /**
     * `handleSelectFromHistory`: the chosen entry becomes current and the
     * history stays as it is. The effect runs when the current result changed,
     * so the dialog opens when the newest entry is chosen over another one.
     */
    method SelectFromHistory(image: GeneratedImage)
      requires isAuthenticated && Valid() && image in history
      modifies this`currentResult, this`isEditDialogOpen
      ensures Valid()
      ensures currentResult == Some(image)
      ensures isEditDialogOpen == (old(isEditDialogOpen) || (old(currentResult) != Some(image) && history[0].id == image.id))
    {
      var changed := currentResult != Some(image);
      currentResult := Some(image);
      if changed {
        OpenDialogIfFresh();
      }
    }
  }
}

=== FILE: edit_dialog.dfy ===
/**
 * The edit dialog (components/EditDialog.tsx): a modal with one controlled
 * text area. It hands the trimmed instruction to its `onSubmit` callback,
 * modelled as the value `Submit` returns.
 */
module EditDialog {
  import opened Types
  import opened JsString

  /** What the dialog shows: nothing, a spinner while editing, or the form. */
  datatype View = Hidden | Busy | Form

  function ViewOf(isOpen: bool, isEditing: bool): (v: View)
    ensures v == Form <==> isOpen && !isEditing
    ensures v == Hidden <==> !isOpen
  {
    if !isOpen then Hidden else if isEditing then Busy else Form
  }

  /** The submit button is disabled when the text is only white space, or while editing. */
  function SubmitDisabled(prompt: string, isEditing: bool): (disabled: bool)
    ensures disabled <==> isEditing || forall i :: 0 <= i < |prompt| ==> IsWhiteSpace(prompt[i])
  {
    Trim(prompt) == "" || isEditing
  }

  class Dialog {
    /** The text area's content; it lives as long as the dialog component does. */
    var prompt: string

    constructor ()
      ensures prompt == ""
    {
      prompt := "";
    }

    /** The text area's `onChange`. */
    method SetPrompt(text: string)
      modifies this
      ensures prompt == text
    {
      prompt := text;
    }

    /**
     * `handleSubmit`: passes on the trimmed text, unless it is empty. The text
     * area keeps what was typed.
     */
    method Submit() returns (submitted: Option<string>)
      ensures submitted.Some? <==> exists i :: 0 <= i < |prompt| && !IsWhiteSpace(prompt[i])
      ensures submitted.Some? ==>
                var s := submitted.value;
                && s != ""
                && !IsWhiteSpace(s[0]) && !IsWhiteSpace(s[|s| - 1])
                && exists k :: Padded(prompt, s, k)
    {
      var trimmed := Trim(prompt);
      if trimmed != "" {
        submitted := Some(trimmed);
      } else {
        submitted := None;
      }
    }
  }
}

=== FILE: gemini_service.dfy ===
/**
 * The image service (services/geminiService.ts) without its network call:
 * how requests are laid out, how an image comes back out of a response, and
 * how images travel as `data:` URIs.
 *
 * The remote `generateContent` call is a parameter `remote` that maps the
 * request parts to a reply: either a response or a thrown error.
 */
module GeminiService {
  import opened Types
  import opened JsString

  /**
   * A part of a request: inline image data, or text. `data` is `None` when
   * the encoding it was cut from has no comma (`split(',')[1]` is undefined).
   */
  datatype RequestPart = InlineImage(data: Option<string>, mimeType: string) | TextPart(text: string)

  /** Inline image data of a response. */
  datatype Blob = Blob(mimeType: string, data: string)

  datatype ResponsePart = ResponsePart(inlineData: Option<Blob>, text: Option<string>)
  datatype Content = Content(parts: seq<ResponsePart>)
  datatype Candidate = Candidate(content: Option<Content>)
  datatype Response = Response(candidates: Option<seq<Candidate>>)

  /** What the remote call does: respond, or throw (an `Error` carries a message). */
  datatype Reply = Responded(response: Response) | Threw(message: Option<string>)

  /** The remote model, seen from here: whatever it replies to a request. */
  type Remote = seq<RequestPart> -> Reply

  /** What `generateImage` and `editImage` settle to: an image URI, or a rejection. */
  datatype Outcome = Success(src: string) | Failure(message: Option<string>)

  const NoGeneratedImage := "Image generation failed. No image data received."
  const NoEditedImage := "Image editing failed. No image data received."

  /**
   * The generation prompt up to the ratio (abbreviated: it is free text for the
   * remote model); the ratio's label and a full stop follow it.
   */
  const GenerationInstructions := "Combine the three images into one photorealistic image, with an aspect ratio of "

  // ---------------------------------------------------------------------------
  // Data URIs

  /** `data:${mimeType};base64,${data}`. */
  function FormatDataUri(mimeType: string, data: string): string {
    "data:" + mimeType + ";base64," + data
  }

  /**
   * `uri.substring(uri.indexOf(':') + 1, uri.indexOf(';'))`: the text strictly
   * between the first ':' and the first ';' (from the start when there is no
   * ':'). Without any ';' the clamped, swapped bounds give the text up to and
   * including the first ':' instead.
   */
  function ParseMimeType(uri: string): (m: string)
    ensures var i, j := IndexOf(uri, ':'), IndexOf(uri, ';');
            && (i < j ==> m == uri[i + 1..j])
            && (j < 0 ==> m == uri[..i + 1])
            && (0 <= j < i ==> m == uri[j..i + 1])
  {
    Substring(uri, IndexOf(uri, ':') + 1, IndexOf(uri, ';'))
  }

  /**
   * `uri.split(',')[1]`: the text after the first ',' up to the next ',' or
   * the end, and nothing when there is no ','.
   */
  function Payload(uri: string): (r: Option<string>)
    ensures r.None? <==> ',' !in uri
    ensures r.Some? ==>
              var i := IndexOf(uri, ',');
              && ',' !in r.value
              && OccursAt(uri, r.value, i + 1)
              && (i + 1 + |r.value| == |uri| || uri[i + 1 + |r.value|] == ',')
  {
    if ',' in uri then
      var rest := uri[IndexOf(uri, ',') + 1..];
      SplitSecond(uri, ',');
      SplitHead(rest, ',');
      PieceAfter(uri, IndexOf(uri, ',') + 1, Split(rest, ',')[0], ',');
      At(Split(uri, ','), 1)
    else
      SplitWithout(uri, ',');
      At(Split(uri, ','), 1)
  }

  /** A blob whose MIME type and data survive the trip through a data URI. */
  predicate Plain(b: Blob) {
    ';' !in b.mimeType && ',' !in b.mimeType && ',' !in b.data
  }

  /** Parsing a formatted URI gives back the MIME type and the data. */
  lemma DataUriRoundTrip(b: Blob)
    requires Plain(b)
    ensures ParseMimeType(FormatDataUri(b.mimeType, b.data)) == b.mimeType
    ensures Payload(FormatDataUri(b.mimeType, b.data)) == Some(b.data)
  {
    MimeTypeRoundTrip(b.mimeType, b.data);
    PayloadRoundTrip(b.mimeType, b.data);
  }

  lemma MimeTypeRoundTrip(m: string, d: string)
    requires ';' !in m
    ensures ParseMimeType(FormatDataUri(m, d)) == m
  {
    var uri := FormatDataUri(m, d);
    assert uri == "data" + (":" + m + ";base64," + d);
    IndexOfAppend("data", ":" + m + ";base64," + d, ':');
    assert IndexOf(uri, ':') == 4;
    assert uri == "data:" + m + (";base64," + d);
    IndexOfAppend("data:" + m, ";base64," + d, ';');
    assert IndexOf(uri, ';') == 5 + |m|;
    assert uri[5..5 + |m|] == m;
  }

  lemma PayloadRoundTrip(m: string, d: string)
    requires ',' !in m && ',' !in d
    ensures Payload(FormatDataUri(m, d)) == Some(d)
  {
    var head := "data:" + m + ";base64";
    assert ',' !in head;
    assert FormatDataUri(m, d) == Join([head, d], ',');
    SplitJoin([head, d], ',');
  }

  // ---------------------------------------------------------------------------
  // Requests

  /** `fileToGenerativePart`: the file's payload with its declared MIME type. */
  function FileToPart(file: UploadedFile): (p: RequestPart)
    ensures p.InlineImage? && p.mimeType == file.fileType
    ensures p.data == Payload(file.base64)
    ensures p.data.Some? <==> ',' in file.base64
  {
    InlineImage(Payload(file.base64), file.fileType)
  }

  /** A file read into a data URI is sent with the data the URI wraps. */
  lemma FileToPartSendsData(fileType: string, b: Blob)
    requires Plain(b)
    ensures FileToPart(UploadedFile(fileType, FormatDataUri(b.mimeType, b.data))) == InlineImage(Some(b.data), fileType)
  {
    DataUriRoundTrip(b);
  }

  function GenerationPrompt(ratio: AspectRatio): (p: string)
    ensures Contains(p, Label(ratio))
  {
    var p := GenerationInstructions + Label(ratio) + ".";
    assert OccursAt(p, Label(ratio), |GenerationInstructions|);
    p
  }

  /** The generation request: design, product and logo images, then the prompt. */
  function GenerationContents(design: UploadedFile, product: UploadedFile, logo: UploadedFile, ratio: AspectRatio)
    : (parts: seq<RequestPart>)
    ensures |parts| == 4
    ensures parts[0] == FileToPart(design) && parts[1] == FileToPart(product) && parts[2] == FileToPart(logo)
    ensures parts[3].TextPart? && Contains(parts[3].text, Label(ratio))
  {
    [FileToPart(design), FileToPart(product), FileToPart(logo), TextPart(GenerationPrompt(ratio))]
  }

  /** The edit prompt quotes the instruction (its surrounding wording is abbreviated). */
  function EditPrompt(instruction: string): (p: string)
    ensures Contains(p, instruction)
  {
    var opening := "Apply the following instruction: \"";
    var p := opening + instruction + "\". Return only the modified image.";
    assert OccursAt(p, instruction, |opening|);
    p
  }

  /** The edit request: the existing image, cut out of its data URI, then the instruction. */
  function EditContents(existing: string, instruction: string): (parts: seq<RequestPart>)
    ensures |parts| == 2
    ensures parts[0] == InlineImage(Payload(existing), ParseMimeType(existing))
    ensures parts[1].TextPart? && Contains(parts[1].text, instruction)
  {
    [InlineImage(Payload(existing), ParseMimeType(existing)), TextPart(EditPrompt(instruction))]
  }

  /** An image the service returned is sent back unchanged when it is edited. */
  lemma EditResendsImage(b: Blob, instruction: string)
    requires Plain(b)
    ensures EditContents(FormatDataUri(b.mimeType, b.data), instruction)[0] == InlineImage(Some(b.data), b.mimeType)
  {
    DataUriRoundTrip(b);
  }

  // ---------------------------------------------------------------------------
  // Responses

  /** Part `k` is the first part that carries inline data. */
  predicate IsFirstImage(parts: seq<ResponsePart>, k: int) {
    && 0 <= k < |parts|
    && parts[k].inlineData.Some?
    && forall j :: 0 <= j < k ==> parts[j].inlineData.None?
  }

  /** `parts.find(part => part.inlineData)`, as a position. */
  function FindInline(parts: seq<ResponsePart>): (r: Option<nat>)
    ensures r.Some? ==> IsFirstImage(parts, r.value)
    ensures r.None? <==> forall j :: 0 <= j < |parts| ==> parts[j].inlineData.None?
  {
    if |parts| == 0 then None
    else if parts[0].inlineData.Some? then Some(0)
    else match FindInline(parts[1..])
      case None => None
      case Some(k) => Some(k + 1)
  }

  /** `response.candidates?.[0]?.content?.parts`. */
  function FirstCandidateParts(response: Response): Option<seq<ResponsePart>> {
    match response.candidates
    case None => None
    case Some(cs) =>
      if |cs| == 0 then None
      else match cs[0].content
        case None => None
        case Some(c) => Some(c.parts)
  }

  /** The inline data of the first part of the first candidate that has any. */
  function FirstImage(response: Response): (b: Option<Blob>)
    ensures b.Some? <==>
              && FirstCandidateParts(response).Some?
              && exists j :: 0 <= j < |FirstCandidateParts(response).value| && FirstCandidateParts(response).value[j].inlineData.Some?
    ensures b.Some? ==>
              exists k :: IsFirstImage(FirstCandidateParts(response).value, k)
                          && FirstCandidateParts(response).value[k].inlineData == b
  {
    match FirstCandidateParts(response)
    case None => None
    case Some(parts) =>
      match FindInline(parts)
      case None => None
      case Some(k) => parts[k].inlineData
  }

  /** Turns a reply into the service's result, failing with `noImage` when it holds no image. */
  function ImageFrom(reply: Reply, noImage: string): Outcome {
    match reply
    case Threw(message) => Failure(message)
    case Responded(response) =>
      match FirstImage(response)
      case Some(b) => Success(FormatDataUri(b.mimeType, b.data))
      case None => Failure(Some(noImage))
  }

  /** `generateImage`: the four-part request, then the image its reply holds. */
  function GenerateImage(design: UploadedFile, product: UploadedFile, logo: UploadedFile, ratio: AspectRatio, remote: Remote)
    : Outcome
  {
    ImageFrom(remote(GenerationContents(design, product, logo, ratio)), NoGeneratedImage)
  }

  /** `editImage`: the two-part request, then the image its reply holds. */
  function EditImage(existing: string, instruction: string, remote: Remote): Outcome {
    ImageFrom(remote(EditContents(existing, instruction)), NoEditedImage)
  }

  /**
   * How a reply settles: a thrown error is passed on as it is; a response
   * succeeds exactly when it holds an image, with that image as a data URI,
   * and otherwise fails with the given fixed message.
   */
  lemma {:induction false} ReplySettles(reply: Reply, noImage: string)
    ensures var r := ImageFrom(reply, noImage);
            && (reply.Threw? ==> r == Failure(reply.message))
            && (reply.Responded? && FirstImage(reply.response).None? ==> r == Failure(Some(noImage)))
            && (r.Success? <==> reply.Responded? && FirstImage(reply.response).Some?)
            && (r.Success? ==>
                  var b := FirstImage(reply.response).value;
                  r.src == FormatDataUri(b.mimeType, b.data))
  {
  }

  /**
   * `generateImage` sends the generation request and settles as its reply
   * does, failing with the generation message when no image comes back.
   */
  lemma GenerateImageSettles(design: UploadedFile, product: UploadedFile, logo: UploadedFile, ratio: AspectRatio, remote: Remote)
    ensures var reply := remote(GenerationContents(design, product, logo, ratio));
            var r := GenerateImage(design, product, logo, ratio, remote);
            && (reply.Threw? ==> r == Failure(reply.message))
            && (reply.Responded? && FirstImage(reply.response).None? ==> r == Failure(Some(NoGeneratedImage)))
            && (r.Success? <==> reply.Responded? && FirstImage(reply.response).Some?)
            && (r.Success? ==>
                  var b := FirstImage(reply.response).value;
                  r.src == FormatDataUri(b.mimeType, b.data))
  {
    ReplySettles(remote(GenerationContents(design, product, logo, ratio)), NoGeneratedImage);
  }

  /**
   * `editImage` sends the edit request and settles as its reply does,
   * failing with the editing message when no image comes back.
   */
  lemma EditImageSettles(existing: string, instruction: string, remote: Remote)
    ensures var reply := remote(EditContents(existing, instruction));
            var r := EditImage(existing, instruction, remote);
            && (reply.Threw? ==> r == Failure(reply.message))
            && (reply.Responded? && FirstImage(reply.response).None? ==> r == Failure(Some(NoEditedImage)))
            && (r.Success? <==> reply.Responded? && FirstImage(reply.response).Some?)
            && (r.Success? ==>
                  var b := FirstImage(reply.response).value;
                  r.src == FormatDataUri(b.mimeType, b.data))
  {
    ReplySettles(remote(EditContents(existing, instruction)), NoEditedImage);
  }

  /** A successful result parses back into the blob it was made from. */
  lemma SuccessParses(response: Response)
    requires FirstImage(response).Some? && Plain(FirstImage(response).value)
    ensures var b := FirstImage(response).value;
            var src := ImageFrom(Responded(response), NoGeneratedImage).src;
            ParseMimeType(src) == b.mimeType && Payload(src) == Some(b.data)
  {
    DataUriRoundTrip(FirstImage(response).value);
  }
}

=== FILE: image_uploader.dfy ===
/**
 * One upload slot (components/ImageUploader.tsx). It keeps a preview of the
 * chosen image and reports what it holds to its parent through a callback,
 * which is modelled as the `Report` a handler returns.
 */
module ImageUploader {
  import opened Types
  import opened JsString

  /**
   * The first file of a change event: its declared MIME type and the data URI
   * a `FileReader` produces for it (the read itself is browser I/O).
   */
  datatype PickedFile = PickedFile(fileType: string, encoding: string)

  /** Whether a handler called `onFileChange`, and with what. */
  datatype Report = Silent | Reported(value: Option<UploadedFile>)

  /** Only files whose MIME type starts with "image/" are taken. */
  predicate IsImageType(fileType: string) {
    StartsWith(fileType, "image/")
  }

  /**
   * Whether the slot shows the preview image (with its remove button) rather
   * than the upload placeholder: `preview` is truthy, so neither null nor "".
   */
  function ShowsPreview(preview: Option<string>): (shown: bool)
    ensures shown <==> preview.Some? && preview.value != ""
  {
    match preview
    case None => false
    case Some(p) => |p| > 0
  }

  class Uploader {
    /** The data URI shown as preview, or null. */
    var preview: Option<string>
    /** The `value` of the hidden file input element. */
    var inputValue: string

    constructor ()
      ensures preview == None && inputValue == ""
    {
      preview, inputValue := None, "";
    }

    /**
     * `handleFileChange`, with the asynchronous read taken as done: an image
     * file becomes the preview and is reported with its encoding; no file, or
     * one of another type, changes nothing and reports nothing.
     */
    method FileChange(picked: Option<PickedFile>) returns (report: Report)
      modifies this`preview
      ensures picked.Some? && IsImageType(picked.value.fileType) ==>
                && preview == Some(picked.value.encoding)
                && report == Reported(Some(UploadedFile(picked.value.fileType, picked.value.encoding)))
      ensures !(picked.Some? && IsImageType(picked.value.fileType)) ==>
                preview == old(preview) && report == Silent
    {
      report := Silent;
      if picked.Some? && IsImageType(picked.value.fileType) {
        var file := picked.value;
        preview := Some(file.encoding);
        report := Reported(Some(UploadedFile(file.fileType, file.encoding)));
      }
    }

    /** `handleRemove`: clears the preview and the input, and reports null. */
    method Remove() returns (report: Report)
      modifies this`preview, this`inputValue
      ensures preview == None && inputValue == "" && report == Reported(None)
    {
      preview := None;
      inputValue := "";
      report := Reported(None);
    }

    /** `handleClick`: the file picker opens exactly when no preview image is shown. */
    method Click() returns (opensPicker: bool)
      ensures opensPicker <==> !ShowsPreview(preview)
    {
      opensPicker := match preview case None => true case Some(p) => p == "";
    }
  }
}

=== FILE: js_string.dfy ===
/**
 * The JavaScript string operations the application relies on, with the
 * semantics ECMAScript gives them (over characters, not UTF-16 code units): `indexOf` of one character, `substring`
 * (clamping and swapping its bounds), `split` on one character, indexing an
 * array past its end, `startsWith` and `trim`.
 */
module JsString {
  import opened Types

  /** `s.indexOf(c)`: the first position of `c` in `s`, or -1 when there is none. */
  function IndexOf(s: string, c: char): (r: int)
    ensures -1 <= r < |s|
    ensures r == -1 <==> c !in s
    ensures 0 <= r ==> s[r] == c && c !in s[..r]
  {
    if |s| == 0 then -1
    else if s[0] == c then 0
    else
      var k := IndexOf(s[1..], c);
      if k == -1 then -1
      else
        assert s[..k + 1] == [s[0]] + s[1..][..k];
        k + 1
  }

  /** A search for `c` passes over a prefix that does not contain it. */
  lemma {:induction false} IndexOfAppend(a: string, b: string, c: char)
    requires c !in a
    ensures IndexOf(a + b, c) == if c in b then |a| + IndexOf(b, c) else -1
  {
    if |a| > 0 {
      assert (a + b)[1..] == a[1..] + b;
      IndexOfAppend(a[1..], b, c);
    } else {
      assert a + b == b;
    }
  }

  /** ECMAScript's clamping of a `substring` argument into `0..n`. */
  function Clamp(i: int, n: nat): (r: nat)
    ensures r <= n
    ensures 0 <= i <= n ==> r == i
    ensures i < 0 ==> r == 0
    ensures n < i ==> r == n
  {
    if i < 0 then 0 else if i > n then n else i
  }

  /**
   * `s.substring(start, end)`: both bounds are clamped into the string, and
   * when the first is past the second they are swapped.
   */
  function Substring(s: string, start: int, end: int): (r: string)
    ensures 0 <= start <= end <= |s| ==> r == s[start..end]
    ensures 0 <= end <= start <= |s| ==> r == s[end..start]
    ensures end < 0 && 0 <= start <= |s| ==> r == s[..start]
    ensures |r| <= |s|
  {
    var a, b := Clamp(start, |s|), Clamp(end, |s|);
    if a <= b then s[a..b] else s[b..a]
  }

  /** `s.split(sep)`: the pieces between the occurrences of `sep`, never empty. */
  function Split(s: string, sep: char): (r: seq<string>)
    ensures |r| >= 1
    decreases |s|
  {
    var i := IndexOf(s, sep);
    if i < 0 then [s] else [s[..i]] + Split(s[i + 1..], sep)
  }

  /** `parts.join(sep)`, the inverse of `Split`. */
  function Join(parts: seq<string>, sep: char): string
    requires |parts| >= 1
  {
    if |parts| == 1 then parts[0] else parts[0] + [sep] + Join(parts[1..], sep)
  }

  /** Joining a piece in front of a non-empty list puts one separator between them. */
  lemma JoinCons(head: string, rest: seq<string>, sep: char)
    requires |rest| >= 1
    ensures Join([head] + rest, sep) == head + [sep] + Join(rest, sep)
  {
    assert ([head] + rest)[0] == head && ([head] + rest)[1..] == rest;
  }

  /** Splitting and joining again gives back the string. */
  lemma {:induction false} JoinSplit(s: string, sep: char)
    ensures Join(Split(s, sep), sep) == s
    decreases |s|
  {
    var i := IndexOf(s, sep);
    if 0 <= i {
      var head, tail := s[..i], s[i + 1..];
      var rest := Split(tail, sep);
      assert Split(s, sep) == [head] + rest;
      JoinSplit(tail, sep);
      JoinCons(head, rest, sep);
      CutAt(s, i);
    } else {
      assert Split(s, sep) == [s];
    }
  }

  /** A string is what comes before position `i`, the element there, and the rest. */
  lemma CutAt(s: string, i: nat)
    requires i < |s|
    ensures s == s[..i] + [s[i]] + s[i + 1..]
  {
  }

  /** No piece of a split contains the separator. */
  lemma {:induction false} SplitPiecesFree(s: string, sep: char)
    ensures forall k :: 0 <= k < |Split(s, sep)| ==> sep !in Split(s, sep)[k]
    decreases |s|
  {
    var i := IndexOf(s, sep);
    if 0 <= i {
      SplitPiecesFree(s[i + 1..], sep);
    }
  }

  /** The first piece of a split is the prefix up to the first separator, if any. */
  lemma SplitHead(s: string, sep: char)
    ensures sep !in Split(s, sep)[0]
    ensures |Split(s, sep)[0]| <= |s| && Split(s, sep)[0] == s[..|Split(s, sep)[0]|]
    ensures |Split(s, sep)[0]| < |s| ==> s[|Split(s, sep)[0]|] == sep
  {
    var i := IndexOf(s, sep);
    if i < 0 {
      assert Split(s, sep) == [s];
      assert s[..|s|] == s;
    } else {
      var head := s[..i];
      assert Split(s, sep) == [head] + Split(s[i + 1..], sep);
      assert Split(s, sep)[0] == head;
    }
  }

  /** Without the separator, a split gives the whole string as its only piece. */
  lemma SplitWithout(s: string, sep: char)
    requires sep !in s
    ensures Split(s, sep) == [s]
  {
  }

  /**
   * With the separator present, the second piece is the first piece of what
   * follows the separator's first occurrence.
   */
  lemma SplitSecond(s: string, sep: char)
    requires sep in s
    ensures |Split(s, sep)| >= 2
    ensures Split(s, sep)[1] == Split(s[IndexOf(s, sep) + 1..], sep)[0]
  {
    var i := IndexOf(s, sep);
    assert Split(s, sep) == [s[..i]] + Split(s[i + 1..], sep);
  }

  /**
   * A piece cut from the front of the suffix at `a`, up to a separator or the
   * end, occurs at `a` and is followed by that separator or the end.
   */
  lemma PieceAfter(s: string, a: nat, p: string, sep: char)
    requires a <= |s|
    requires |p| <= |s| - a && p == s[a..][..|p|]
    requires |p| < |s| - a ==> s[a..][|p|] == sep
    ensures OccursAt(s, p, a)
    ensures a + |p| == |s| || s[a + |p|] == sep
  {
    assert s[a..][..|p|] == s[a..a + |p|];
  }

  /** A separator after a piece free of it is where the split cuts. */
  lemma SplitCons(head: string, tail: string, sep: char)
    requires sep !in head
    ensures Split(head + [sep] + tail, sep) == [head] + Split(tail, sep)
  {
    var s := head + [sep] + tail;
    IndexOfAppend(head, [sep] + tail, sep);
    assert s == head + ([sep] + tail);
    assert s[..|head|] == head && s[|head| + 1..] == tail;
  }

  /** Joining pieces free of `sep` and splitting again gives back the pieces. */
  lemma {:induction false} SplitJoin(parts: seq<string>, sep: char)
    requires |parts| >= 1
    requires forall i :: 0 <= i < |parts| ==> sep !in parts[i]
    ensures Split(Join(parts, sep), sep) == parts
  {
    if |parts| > 1 {
      SplitCons(parts[0], Join(parts[1..], sep), sep);
      SplitJoin(parts[1..], sep);
      assert parts == [parts[0]] + parts[1..];
    } else {
      assert sep !in parts[0];
    }
  }

  /** `array[k]`: the element at `k`, or `undefined` past the end. */
  function At<T>(a: seq<T>, k: nat): (r: Option<T>)
    ensures r.Some? <==> k < |a|
    ensures r.Some? ==> r.value == a[k]
  {
    if k < |a| then Some(a[k]) else None
  }

  /** `s.startsWith(prefix)`. */
  predicate StartsWith(s: string, prefix: string) {
    |prefix| <= |s| && s[..|prefix|] == prefix
  }

  /** `t` occurs somewhere in `s` (what `s.includes(t)` tests). */
  ghost predicate Contains(s: string, t: string) {
    exists k :: OccursAt(s, t, k)
  }

  /** `t` occurs in `s` starting at position `k`. */
  predicate OccursAt(s: string, t: string, k: int) {
    0 <= k && k + |t| <= |s| && s[k..k + |t|] == t
  }

  /** The white space and line terminators that ECMAScript's `trim` removes. */
  predicate IsWhiteSpace(c: char) {
    var n := c as int;
    n == 0x09 || n == 0x0A || n == 0x0B || n == 0x0C || n == 0x0D || n == 0x20 ||
    n == 0xA0 || n == 0x1680 || (0x2000 <= n <= 0x200A) || n == 0x2028 || n == 0x2029 ||
    n == 0x202F || n == 0x205F || n == 0x3000 || n == 0xFEFF
  }

  /** `s` with its leading white space removed. */
  function TrimStart(s: string): (r: string)
    ensures |r| <= |s| && r == s[|s| - |r|..]
    ensures forall i :: 0 <= i < |s| - |r| ==> IsWhiteSpace(s[i])
    ensures r != [] ==> !IsWhiteSpace(r[0])
  {
    if |s| > 0 && IsWhiteSpace(s[0]) then TrimStart(s[1..]) else s
  }

  /** `s` with its trailing white space removed. */
  function TrimEnd(s: string): (r: string)
    ensures |r| <= |s| && r == s[..|r|]
    ensures forall i :: |r| <= i < |s| ==> IsWhiteSpace(s[i])
    ensures r != [] ==> !IsWhiteSpace(r[|r| - 1])
  {
    if |s| > 0 && IsWhiteSpace(s[|s| - 1]) then TrimEnd(s[..|s| - 1]) else s
  }

  /**
   * `s.trim()`: the part of `s` left once white space is removed from both
   * ends. It is empty exactly when `s` is all white space.
   */
  function Trim(s: string): (r: string)
    ensures r == [] <==> forall i :: 0 <= i < |s| ==> IsWhiteSpace(s[i])
    ensures r != [] ==> !IsWhiteSpace(r[0]) && !IsWhiteSpace(r[|r| - 1])
    ensures exists k :: Padded(s, r, k)
  {
    var r := TrimEnd(TrimStart(s));
    TrimPadded(s);
    PaddedEmpty(s, r, |s| - |TrimStart(s)|);
    r
  }

  /** Trimming the start, then the end, leaves `s` padded by white space only. */
  lemma TrimPadded(s: string)
    ensures Padded(s, TrimEnd(TrimStart(s)), |s| - |TrimStart(s)|)
  {
    var t := TrimStart(s);
    PaddedInside(s, t, TrimEnd(t), |s| - |t|);
  }

  /** A white-space suffix of `t` trimmed off the end of a white-space-led suffix of `s`. */
  lemma PaddedInside(s: string, t: string, r: string, k: int)
    requires 0 <= k <= |s| && t == s[k..]
    requires forall i :: 0 <= i < k ==> IsWhiteSpace(s[i])
    requires |r| <= |t| && r == t[..|r|]
    requires forall i :: |r| <= i < |t| ==> IsWhiteSpace(t[i])
    ensures Padded(s, r, k)
  {
    assert s[k..k + |r|] == r;
    forall i | k + |r| <= i < |s| ensures IsWhiteSpace(s[i]) {
      assert s[i] == t[i - k];
    }
  }

  /** What is padded by white space is empty exactly when everything is white space. */
  lemma PaddedEmpty(s: string, r: string, k: int)
    requires Padded(s, r, k)
    requires r != [] ==> !IsWhiteSpace(r[0])
    ensures r == [] <==> forall i :: 0 <= i < |s| ==> IsWhiteSpace(s[i])
  {
    if r != [] {
      assert s[k] == r[0];
    }
  }

  /** `s` is `r` at position `k` with nothing but white space around it. */
  predicate Padded(s: string, r: string, k: int) {
    && OccursAt(s, r, k)
    && (forall i :: 0 <= i < k ==> IsWhiteSpace(s[i]))
    && (forall i :: k + |r| <= i < |s| ==> IsWhiteSpace(s[i]))
  }

  /** Trimming twice is trimming once. */
  lemma TrimIdempotent(s: string)
    ensures Trim(Trim(s)) == Trim(s)
  {
    var r := Trim(s);
    assert TrimStart(r) == r;
    assert TrimEnd(r) == r;
  }
}

=== FILE: login.dfy ===
/**
 * The login form (components/Login.tsx): two controlled text fields and an
 * error line. Submitting compares the fields with one fixed pair of
 * credentials; on a match it clears the error and signals the application,
 * otherwise it shows a fixed message.
 */
module Login {

  const Username := "evo"
  const Password := "0001"
  const InvalidCredentials := "Invalid username or password."

  /** The one accepted pair of credentials. */
  predicate ValidCredentials(username: string, password: string) {
    username == Username && password == Password
  }

  /** The error line a submission of `username` and `password` leaves behind. */
  function SubmitError(username: string, password: string): (e: string)
    ensures e == "" <==> ValidCredentials(username, password)
    ensures e != "" ==> e == InvalidCredentials
  {
    if ValidCredentials(username, password) then "" else InvalidCredentials
  }

  /**
   * Both fields are `required`: the browser submits the form, and so runs
   * `handleSubmit`, only when neither is empty.
   */
  predicate Submittable(username: string, password: string) {
    username != "" && password != ""
  }

  /** The accepted credentials always get past the browser's check. */
  lemma ValidSubmittable(username: string, password: string)
    ensures ValidCredentials(username, password) ==> Submittable(username, password)
  {
  }

  class LoginForm {
    var username: string
    var password: string
    var error: string

    constructor ()
      ensures username == "" && password == "" && error == ""
    {
      username, password, error := "", "", "";
    }

    /** The username field's `onChange`. */
    method SetUsername(value: string)
      modifies this`username
      ensures username == value
    {
      username := value;
    }

    /** The password field's `onChange`. */
    method SetPassword(value: string)
      modifies this`password
      ensures password == value
    {
      password := value;
    }

    /**
     * `handleSubmit`: `signalled` says whether `onLoginSuccess` was called
     * (once) by this submission. The fields are left as they were, so the
     * new state depends on them alone and a repeated submission changes
     * nothing further.
     */
    method Submit() returns (signalled: bool)
      modifies this`error
      ensures signalled <==> ValidCredentials(username, password)
      ensures error == SubmitError(username, password)
    {
      if ValidCredentials(username, password) {
        error := "";
        signalled := true;
      } else {
        error := InvalidCredentials;
        signalled := false;
      }
    }

    /**
     * The form's submit button: with an empty field the browser refuses the
     * submission and nothing happens; otherwise `handleSubmit` runs.
     */
    method RequestSubmit() returns (signalled: bool)
      modifies this`error
      ensures signalled <==> ValidCredentials(username, password)
      ensures Submittable(username, password) ==> error == SubmitError(username, password)
      ensures !Submittable(username, password) ==> error == old(error)
    {
      if username == "" || password == "" {
        signalled := false;
      } else {
        signalled := Submit();
      }
    }
  }
}

=== FILE: types.dfy ===
/** The value types shared by the application (types.ts). */
module Types {

  /** `T | null` in the source. */
  datatype Option<+T> = None | Some(value: T)

  /** The four output ratios the picker offers. */
  datatype AspectRatio = Square | Wide | Portrait | Landscape

  /** The ratio as the string literal the source uses ('1:1', '2:1', '4:5', '3:2'). */
  function Label(r: AspectRatio): (s: string)
    ensures |s| == 3 && s[1] == ':'
  {
    match r
    case Square => "1:1"
    case Wide => "2:1"
    case Portrait => "4:5"
    case Landscape => "3:2"
  }

  /** The ratio a label names, if it is one of the four. */
  function ParseLabel(s: string): (r: Option<AspectRatio>)
    ensures r.Some? ==> Label(r.value) == s
  {
    if s == "1:1" then Some(Square)
    else if s == "2:1" then Some(Wide)
    else if s == "4:5" then Some(Portrait)
    else if s == "3:2" then Some(Landscape)
    else None
  }

  /** Every label parses back into its ratio. */
  lemma LabelRoundTrip(r: AspectRatio)
    ensures ParseLabel(Label(r)) == Some(r)
  {
  }

  /** Distinct ratios have distinct labels. */
  lemma LabelInjective(a: AspectRatio, b: AspectRatio)
    ensures Label(a) == Label(b) ==> a == b
  {
    if Label(a) == Label(b) {
      LabelRoundTrip(a);
      LabelRoundTrip(b);
    }
  }

  /**
   * A file chosen in an upload slot. Of the browser's File object only its
   * declared MIME type is ever read, so that is all that is kept; `base64` is
   * the data URI the file was read into.
   */
  datatype UploadedFile = UploadedFile(fileType: string, base64: string)

  /** One generated or edited image; immutable once created. */
  datatype GeneratedImage = GeneratedImage(id: string, src: string, prompt: string, aspectRatio: AspectRatio)
}
